=== FILE: README.md ===
# gimmie download core, modelled in Dafny

gimmie is a command-line downloader. It reads URLs from a text file and
downloads each one into a folder. This project models the three functions
of `src/gimmie/main.py` that decide what happens:

- `read_urls_from_file`: every line is cleaned by four `str.strip` calls in
  a fixed order, and the cleaned line is kept when it is non-empty and is not
  a `#` comment. A file that cannot be read yields the empty list.
- `download_file`: a `while` loop makes up to `retry_count + 1` attempts.
  Each attempt requests the URL. An attempt that gets a response with a
  parsable size header opens the target file with mode `"wb"` (which
  truncates it) and streams the body chunk by chunk. Before each
  chunk it checks the optional total timeout against a start time taken once
  before the loop. The `except` clauses then classify the attempt: a 4xx
  status (429 included) returns `False` at once; a connect or read timeout,
  the total timeout, and a request error with a non-4xx status are retried
  after sleeping `2**attempts` seconds, with no sleep after the last allowed
  attempt. Two failures escape instead: a request error that carries no
  response raises `AttributeError` inside its handler (see Findings), and a
  size header that does not parse as an integer raises `ValueError`, which
  no clause catches.
- `download_files_from_list`: one `download_file` call per URL, in order,
  counting the calls that return `True`.

The model is pure. The network behaviour of each attempt is an input, the
`Network` value: the exception raised by the request, or the size header,
the chunks, and a fault that may cut the body short. Each chunk carries the
clock reading that the timeout check takes when the chunk arrives. The
result of the HTTP layer, the clock and the file system are therefore
parameters, not effects.

Modules, following the source:

| module | file | models |
|---|---|---|
| `Base` | base.dfy | `Option`, bytes, concatenation of chunks |
| `Text` | text.dfy | Python's `str.strip(chars)` and the `str.isspace` character set |
| `UrlLine` | url_line.dfy | the four-step cleaning of one line and the keep test |
| `UrlList` | url_list.dfy | `read_urls_from_file` |
| `Transfer` | transfer.dfy | the chunk loop of one attempt with the total-timeout check |
| `Attempt` | attempt.dfy | one attempt's `try` block and its `except` clauses |
| `Retry` | retry.dfy | the attempt counter, the early returns and the backoff sleeps |
| `Engine` | engine.dfy | `download_file` as a whole, with the target file's contents |
| `Batch` | batch.dfy | `download_files_from_list` |

`download_file` as written cannot run, because `time` is never imported
(see Findings). The working model of it, `Engine.DownloadFile`, therefore
imports `time` and keeps everything else as written. `Engine.DownloadFileGuarded`
also adds the response check that the last `except` clause lacks.

The repository's tests (`tests/test_gimmie.py`) describe a different
`download_file`. That version resumes from `.part` files with a `Range`
header, caps the backoff at 60 seconds and retries status 429. The code does
none of this, and the model follows the code: the file is truncated on
every attempt, the sleep is `2**attempts` with no cap, and 429 stops the
loop like any other 4xx status.

## Model

| member | source | states |
|---|---|---|
| Base.FlattenLength | src/gimmie/main.py:80-83 | the bytes written to the file number exactly the sum of the chunk lengths counted in `downloaded_bytes` |
| Base.FlattenAppend | src/gimmie/main.py:80-82 | writing two runs of chunks one after the other leaves their contents concatenated |
| Text.Leading | src/gimmie/main.py:138 | the number of leading characters `strip` removes is at most the string's length |
| Text.LeadingSpec | src/gimmie/main.py:138 | `strip` removes the longest leading run of characters from the strip set, and nothing past it |
| Text.Trailing | src/gimmie/main.py:138 | the number of trailing characters `strip` removes is at most the string's length |
| Text.TrailingSpec | src/gimmie/main.py:138 | `strip` removes the longest trailing run of characters from the strip set, and nothing before it |
| Text.Strip | src/gimmie/main.py:138 | the result is the infix that starts right after the leading run of strip-set characters and is followed only by strip-set characters; a non-empty result neither starts nor ends with one, and a string made only of them strips to the empty string |
| Text.StripSpec | src/gimmie/main.py:138 | a stripped string is the infix between the leading and the trailing runs; a non-empty result neither starts nor ends with a stripped character |
| Text.StripUnique | src/gimmie/main.py:138 | any infix that has only strip-set characters on both sides and does not start or end with one is the result of `strip` |
| Text.StripPadding | src/gimmie/main.py:138 | padding of strip-set characters around a string whose ends are outside the set is exactly what `strip` removes |
| Text.StripKeepsStripped | src/gimmie/main.py:138 | a string whose first and last characters are outside the strip set is returned unchanged |
| Text.StripIdempotent | src/gimmie/main.py:138 | stripping with the same characters twice changes nothing more |
| UrlLine.Clean | src/gimmie/main.py:138 | cleaning a line never makes it longer |
| UrlList.Select | src/gimmie/main.py:139-140 | the URLs collected are exactly the cleaned lines at the kept positions, one per kept position, in order; each passes the non-empty, not-`#` test |
| UrlList.ReadUrls | src/gimmie/main.py:133-144 | an unreadable file gives the empty list; otherwise the URLs are the cleaned forms of exactly the kept lines, one per kept line, in file order, each non-empty and not starting with `#` |
| UrlList.KeptIndices | src/gimmie/main.py:139 | the positions of the kept lines are increasing and in range, each is kept, and every kept position is among them |
| UrlList.SelectAppend | src/gimmie/main.py:136-140 | the URLs of two runs of lines are the URLs of each run, concatenated |
| UrlList.BareIsClean | src/gimmie/main.py:138 | a URL whose ends survive every strip is unchanged by cleaning |
| UrlList.BlankLineIsSkipped | src/gimmie/main.py:138-139 | a line of whitespace cleans to the empty string and is not collected |
| UrlList.PaddedUrlIsRecovered | src/gimmie/main.py:138 | indentation and the line break around a URL are removed and nothing else is |
| UrlList.DoubleQuotedUrlIsRecovered | src/gimmie/main.py:138 | a URL in double quotes, padded with whitespace, is recovered without the quotes |
| UrlList.SingleQuotedUrlIsRecovered | src/gimmie/main.py:138 | a URL in single quotes, padded with whitespace, is recovered without the quotes |
| UrlList.TrailingCommaIsRemoved | src/gimmie/main.py:138 | a URL followed by a comma is recovered without the comma |
| UrlList.QuoteBeforeCommaSurvives | src/gimmie/main.py:138 | because of the fixed strip order, a double-quoted URL followed by a comma keeps its closing quote |
| Transfer.FirstExpired | src/gimmie/main.py:72-77 | the first chunk at which the timeout check fires: no check fires before it, and it fires there unless no chunk is left |
| Transfer.DatasSnoc | src/gimmie/main.py:80-81 | data arrived in a stream exactly when it arrived before the last chunk or in the last chunk |
| Transfer.ReceiveInTime | src/gimmie/main.py:71-84 | while no check fires, every chunk's data is written and counted, and `received_data` says whether any chunk carried data |
| Transfer.ReceiveTimesOutAt | src/gimmie/main.py:72-77 | the first firing check ends the loop with what was written before it |
| Transfer.ReceiveSpec | src/gimmie/main.py:71-84 | the file holds exactly the data of the chunks before the first firing check, `downloaded_bytes` is its length, and the loop ends by timeout exactly when some check fires |
| Transfer.NoLimitWritesEverything | src/gimmie/main.py:74 | with a total timeout of `None` or `0` every chunk is written and the transfer never times out |
| Transfer.ExpiryPersists | src/gimmie/main.py:47-74 | the deadline counts from the one start time, so a clock reading past it stays past it |
| Transfer.LateTransferWritesNothing | src/gimmie/main.py:71-77 | a transfer whose first check fires leaves the truncated file empty and ends by timeout |
| Transfer.Receive | src/gimmie/main.py:71-84 | `downloaded_bytes` always equals the number of bytes written, `received_data` is true exactly when some bytes were written, and a timeout needs at least one chunk |
| Transfer.ReceiveLoop | src/gimmie/main.py:71-84 | the `for` loop over the chunks computes the same file contents, byte count, data flag and timeout as the transfer |
| Transfer.ReceiveStopsAt | src/gimmie/main.py:72-77 | chunks after the one that raised the timeout change nothing |
| Attempt.Perform | src/gimmie/main.py:53-99 | a request or status check that raises reaches the handlers with no data received and no file opened; an unparsable size header raises `ValueError` before the file is opened; a response with a parsable size opens the file; the file then holds the data of the chunks that arrived before the deadline; the attempt times out when some chunk arrived after it, and otherwise ends with the fault that cut the body short and whether any chunk carried data, or completes |
| Attempt.PerformSpec | src/gimmie/main.py:55-99 | an attempt opens the file exactly when a response with a parsable size arrived, writes the data of the chunks before the deadline, completes exactly when the whole body arrived in time, and times out exactly when a check fired; a raising request ends as that exception with no data, an unparsable size as `ValueError`, and a body cut before the deadline as the cutting fault with `received_data` telling whether any chunk carried data |
| Attempt.Judge | src/gimmie/main.py:101-114 | the attempt succeeded exactly when the body completed; the call gives up exactly on a 4xx status; an exception escapes exactly on an unparsable size (as `ValueError`) or a request error without a response |
| Attempt.JudgeGuarded | src/gimmie/main.py:110-114 | with the response check, only an unparsable size escapes; every case but a responseless request error is classified as written, and that one is retried as a transport failure |
| Attempt.GuardOnlyChangesResponselessErrors | src/gimmie/main.py:110-114 | the check changes the classification of a caught exception exactly when it carries no response, which as written raises `AttributeError` |
| Attempt.StatusClassification | src/gimmie/main.py:112-114 | every status from 400 to 499, 429 included, gives up; every other status is retried |
| Attempt.StallNeedsData | src/gimmie/main.py:103-107 | a read timeout counts as a stall only when the response had delivered data before the deadline |
| Attempt.ReadTimeoutClassification | src/gimmie/main.py:103-107 | a body cut off by a read timeout before the deadline is a stall exactly when some chunk carried data, and an unresponsive server otherwise |
| Retry.Pow2 | src/gimmie/main.py:118 | `2**n`, at least 1, so every sleep lasts at least one second |
| Retry.Loop | src/gimmie/main.py:50-126 | from a given counter value: the attempts made fit the remaining budget, one sleep follows each retried attempt but the last, the k-th sleep is `2**(counter+1+k)`, and the last attempt's verdict decides the result |
| Retry.Drive | src/gimmie/main.py:50-126 | a negative `retry_count` makes no attempt; otherwise 1 to `retry_count + 1` attempts, every attempt but the last retried, sleeps of `2**1, 2**2, ...` seconds, one fewer than the attempts, and a retried last attempt means the budget ran out |
| Retry.FirstFinal | src/gimmie/main.py:52-114 | the first attempt that does not ask for a retry |
| Retry.DriveStopsAtFirstFinal | src/gimmie/main.py:52-126 | the loop stops at the first attempt that succeeds, gives up or raises when it lies within the budget, and otherwise makes every allowed attempt and returns `False` |
| Retry.DownloadedIff | src/gimmie/main.py:52-126 | `True` is returned exactly when some allowed attempt succeeds after only retried attempts, and that attempt is the last one made |
| Retry.ClientErrorShortCircuits | src/gimmie/main.py:112-114 | a 4xx attempt is the last one: `False`, with only the sleeps of the attempts before it |
| Retry.BackoffSchedule | src/gimmie/main.py:116-122 | the n sleeps `2**1, ..., 2**n` seconds, without a cap |
| Retry.ExhaustedRun | src/gimmie/main.py:116-126 | when every attempt fails, exactly `retry_count + 1` attempts and `retry_count` sleeps are made and `False` is returned |
| Retry.DownloadLoop | src/gimmie/main.py:50-126 | the `while` loop with its counter, early returns and conditional sleep computes the same run as the retry model |
| Engine.LastFileIsLastWrite | src/gimmie/main.py:71 | the file holds what the last attempt that opened it wrote, whatever earlier attempts or an earlier file held |
| Engine.LastFileUntouched | src/gimmie/main.py:55-71 | when no attempt opened the file, it is as it was |
| Engine.DownloadFile | src/gimmie/main.py:12-126 | a negative `retry_count` makes no attempt and leaves the file alone; otherwise 1 to `retry_count + 1` attempts, every one but the last retried and followed by a sleep of `2**k` seconds, the last attempt's classification deciding the result, and a retried last attempt meaning the attempts ran out |
| Engine.DownloadFileGuarded | src/gimmie/main.py:12-126 | the same loop driven by the guarded classification: the attempt bound, the `2**k` sleeps, the last attempt deciding the result, and `AttributeError` never escaping |
| Engine.GuardedCrashNeedsBadSize | src/gimmie/main.py:64 | with the response check, an escaping exception is the `ValueError` of an unparsable size header in the last attempt |
| Engine.MissingImportLosesEveryDownload | src/gimmie/main.py:47 | a server that sends the whole body on the first request before the deadline gives `True` once `time` is imported, but the code as written raises `NameError` |
| Engine.ResponselessErrorEscapes | src/gimmie/main.py:110-114 | a request error without a response followed by a good response: `AttributeError` after one attempt as written, `True` after one retry and a 2-second sleep with the check |
| Engine.DownloadFileAsWritten | src/gimmie/main.py:4-47 | whatever the network does, the call raises `NameError` before any attempt, sleeps never, and leaves the target file as it was |
| Engine.ClientErrorStopsDownload | src/gimmie/main.py:58-114 | an allowed attempt whose status check raises a 4xx error after only retried attempts makes the call return `False` at once, as its last attempt, with only the sleeps before it |
| Engine.CompletedAttemptDownloads | src/gimmie/main.py:52-99 | an allowed attempt that gets a parsable size and its whole body before the deadline, after only retried attempts, makes the call return `True`, and it is the last attempt made |
| Engine.DownloadedFileIsWholeBody | src/gimmie/main.py:71-99 | after `True` the file holds exactly the concatenated chunks of the successful attempt, which got a parsable size and no fault |
| Engine.OverTimeIsPermanent | src/gimmie/main.py:47-77 | once an attempt has run past the deadline, every later attempt that reaches the body ends at its first chunk with an empty file |
| Engine.SecondAttemptSharesTheDeadline | src/gimmie/main.py:47-77 | with a 10-second limit, a second attempt whose first chunk arrives 11 seconds after the call began is cut off, and the call returns `False` with an empty file |
| Batch.Successes | src/gimmie/main.py:158-170 | the counter equals the number of calls that returned `True`, so it never exceeds the number of calls |
| Batch.FirstCrash | src/gimmie/main.py:161-170 | the first call from which an exception escapes, with none before it |
| Batch.RunBatch | src/gimmie/main.py:147-172 | the summary is printed exactly when no call raises; it reports the number of `True` calls out of the list's length; otherwise the batch stops at the first raising call |
| Batch.DownloadFilesFromList | src/gimmie/main.py:158-172 | the `for` loop with its counter gives the same summary or escape as the batch |
| Batch.SuccessesAppend | src/gimmie/main.py:161-170 | the count over two runs of calls is the sum of their counts |
| Batch.AsWrittenBatchStopsAtFirstUrl | src/gimmie/main.py:47 | with `download_file` as written, a non-empty list stops on `NameError` at its first URL, and only an empty list prints `0` out of `0` |
| Batch.GuardedBatchAbortsOnlyOnBadSize | src/gimmie/main.py:64 | with the response check, a batch stops early only on a `ValueError` from a server whose size header does not parse |

## Left out

- Network and HTTP layer: `requests.get`, `raise_for_status` and `iter_content` are replaced by the per-attempt `Network` input. Which exception the library raises for a given network event is part of that input.
- Connect and read timeout values: they only configure the HTTP layer and appear in messages. Their effect is which `Fault` the input carries.
- Clock: the start time and each chunk's clock reading are inputs. `last_data_time` is assigned but never read, so it is not modelled.
- Clock arithmetic: readings and the elapsed time are exact reals, whereas `time.time() - start_time` is floating-point arithmetic; rounding at the deadline boundary is not modelled.
- Total timeout type: `total_timeout` is an optional integer, as the command line supplies it; a floating-point limit passed to `download_file` directly is not covered.
- File system: creating the destination folder, deriving the file name from the URL path (lines 35-42), and errors from `open` or `write` are not modelled. The file is its contents, or `None` when absent.
- Output: progress lines, messages and the final summary text are not modelled. The summary's two numbers are.
- `time.sleep`: sleeps are recorded as durations and not performed.
- URL file input: reading the file and splitting it into lines is the `Source` input. Any exception while opening or reading it is `Unreadable`.
- `main` and argument parsing (lines 175-238) are not modelled. Apart from passing the parsed options through, `main` returns 1 without downloading anything when the URL file yields no URLs (lines 219-221).
- Resume from `.part` files, `Range` requests, the 60-second backoff cap and retrying 429: the tests expect these, but the code does not implement them.
- Python's `str.isspace` set is written out as a fixed set of characters. Unicode data beyond it is not modelled.
- Text.Leading: its own contract is only a length bound. The full characterisation is stated in Text.LeadingSpec.
- Text.Trailing: its own contract is only a length bound. The full characterisation is stated in Text.TrailingSpec.
- UrlLine.Clean: its own contract is only a length bound. What it computes is stated by the Text strip lemmas and the UrlList recovery lemmas.
- Transfer.Receive: its own contract relates the byte count, the data flag and the timeout to each other and not to the chunks. What it writes, and when it times out, is stated by Transfer.ReceiveSpec.
- Engine.DownloadFile: it requires the script to hold at least `retry_count + 1` attempts. An attempt that is never made needs no network behaviour, so this only sizes the input.
- Engine.DownloadFile: its own contract does not describe the file's contents; what a successful call leaves is stated by Engine.DownloadedFileIsWholeBody, and the file after a failed call is whatever the last attempt that opened it wrote (Engine.LastFileIsLastWrite).
- Engine.DownloadFileGuarded: its own contract does not describe the file's contents, which are computed exactly as in Engine.DownloadFile.

## Findings

| source | as written | input that shows it | evidently intended | confidence | as-written member | corrected member |
|---|---|---|---|---|---|---|
| src/gimmie/main.py:47 | `time.time()` is called, but the module never imports `time` | any call to `download_file`, for example a URL whose server answers the first request with the whole body | `import time`, so that the total timeout and the backoff sleeps work | high; not executed | Engine.DownloadFileAsWritten, Engine.MissingImportLosesEveryDownload, Batch.AsWrittenBatchStopsAtFirstUrl | Engine.DownloadFile, Engine.DownloadedFileIsWholeBody |
| src/gimmie/main.py:113 | `hasattr(e, "response")` is always true for a `RequestException`, so `e.response.status_code` is read even when `e.response` is `None`, and the handler raises `AttributeError` | retry count 1; first attempt raises a `RequestException` without a response (a connection error); second attempt gets a good response | treat a missing response as a retryable transport failure | high; not executed | Attempt.Judge, Engine.DownloadFile, Engine.ResponselessErrorEscapes | Attempt.JudgeGuarded, Engine.DownloadFileGuarded, Engine.GuardedCrashNeedsBadSize |

=== FILE: attempt.dfy ===
/**
 * One pass through the body of the retry loop of `download_file`: what the
 * network does during the attempt, what the attempt does with it, and how
 * the `except` clauses classify the way it ended.
 */
module Attempt {
  import opened Base
  import opened Transfer

  /**
   * An exception raised by the HTTP layer. `RequestError` is any other
   * `RequestException`, with the status code of the response it carries,
   * or `None` when it carries none (a refused connection, a DNS failure).
   */
  datatype Fault = ConnectTimeout | ReadTimeout | RequestError(response: Option<int>)

  /** Whether the `content-length` header converts with `int()` (a missing header reads as `0`). */
  datatype SizeHeader = Usable | Unparsable

  /**
   * What the network does during one attempt: either the request (or the
   * status check right after it) raises, or a response arrives whose body
   * is yielded chunk by chunk and possibly cut off by a fault.
   */
  datatype Network =
    | Raised(fault: Fault)
    | Responded(size: SizeHeader, chunks: seq<Chunk>, cut: Option<Fault>)

  /** How the attempt's `try` block ended. */
  datatype Ending =
    | Completed                            // the body was streamed to the end
    | Caught(fault: Fault, received: bool) // an HTTP-layer exception, with `received_data`
    | OverTime                             // the total-timeout `TimeoutError`
    | BadSize                              // `int()` raised `ValueError` on the size header

  /** The ending of an attempt, and the file contents it left when it opened the file. */
  datatype Effect = Effect(ending: Ending, file: Option<seq<byte>>)

  /**
   * The `try` block of one attempt. The file is opened (and so truncated)
   * only once a response has arrived and its size header has been read: an
   * exception from the request or the status check reaches the handlers
   * with `received_data` still false and no file, and so does the
   * `ValueError` of a size header that does not parse. A response with a
   * usable size header leaves the file holding the data of the chunks that
   * arrived before the deadline; the attempt times out when some chunk
   * arrived after it, and otherwise ends with the fault that cut the body
   * short, or completes.
   */
  function Perform(net: Network, limit: Option<int>, start: real): (e: Effect)
    ensures net.Raised? ==> e == Effect(Caught(net.fault, false), None)
    ensures net.Responded? && net.size == Unparsable ==> e == Effect(BadSize, None)
    ensures net.Responded? && net.size == Usable ==>
      var k := FirstExpired(net.chunks, limit, start);
      && e.file == Some(Flatten(Datas(net.chunks[..k])))
      && e.ending == (if k < |net.chunks| then OverTime
                      else if net.cut.Some? then Caught(net.cut.value, AnyData(net.chunks))
                      else Completed)
  {
    match net
    case Raised(f) => Effect(Caught(f, false), None)
    case Responded(size, chunks, cut) =>
      if size == Unparsable then Effect(BadSize, None)
      else
        assert size == Usable;
        ReceiveSpec(chunks, limit, start);
        assert chunks[..|chunks|] == chunks;
        var r := Receive(chunks, limit, start);
        if r.timedOut then Effect(OverTime, Some(r.written))
        else if cut.Some? then Effect(Caught(cut.value, r.received), Some(r.written))
        else Effect(Completed, Some(r.written))
  }

  /**
   * What an attempt contributes to the outcome: it opened the file exactly
   * when a response with a usable size header arrived; whatever it wrote is
   * the data of the chunks it accepted; it completed exactly when the
   * whole body arrived before the deadline; it timed out exactly when some
   * chunk arrived after it; a request that raised, or a size header that
   * does not parse, ends the attempt before any data; and a body cut short
   * before the deadline ends with the cutting fault and whether data came.
   */
  lemma PerformSpec(net: Network, limit: Option<int>, start: real)
    ensures var e := Perform(net, limit, start);
      && (e.file.Some? <==> net.Responded? && net.size == Usable)
      && (e.file.Some? ==>
            e.file.value == Flatten(Datas(net.chunks[..FirstExpired(net.chunks, limit, start)])))
      && (e.ending == Completed <==>
            net.Responded? && net.size == Usable && net.cut.None?
            && FirstExpired(net.chunks, limit, start) == |net.chunks|)
      && (e.ending == OverTime <==>
            net.Responded? && net.size == Usable && FirstExpired(net.chunks, limit, start) < |net.chunks|)
      && (net.Raised? ==> e.ending == Caught(net.fault, false))
      && (net.Responded? && net.size == Unparsable ==> e.ending == BadSize)
      && (net.Responded? && net.size == Usable && net.cut.Some?
          && FirstExpired(net.chunks, limit, start) == |net.chunks| ==>
            e.ending == Caught(net.cut.value, AnyData(net.chunks)))
  {
    if net.Responded? {
      ReceiveSpec(net.chunks, limit, start);
      assert net.chunks[..|net.chunks|] == net.chunks;
    }
  }

  /** Why an attempt is retried. */
  datatype Reason =
    | ConnectTimedOut
    | NoResponse          // read timeout before any data arrived
    | Stalled             // read timeout after some data arrived
    | OverallTimeout
    | HttpFailed(status: int)
    | TransportFailed

  /** An exception that leaves `download_file` uncaught. */
  datatype Escape = NameError | AttributeError | ValueError

  /** The classification of one attempt. */
  datatype Verdict =
    | Succeeded
    | Retry(reason: Reason)
    | GiveUp(status: int)   // `return False` on a 4xx status
    | Escaped(error: Escape)

  /** A status the source refuses to retry: the client-error range, 429 included. */
  predicate ClientError(status: int)
  {
    400 <= status < 500
  }

  /**
   * The `except` clauses as written. The last one reads
   * `e.response.status_code` without checking that a response is attached,
   * so a `RequestException` that carries none raises `AttributeError`
   * inside the handler, which nothing catches.
   */
  function Judge(e: Ending): (v: Verdict)
    ensures v.Succeeded? <==> e.Completed?
    ensures v.GiveUp? <==> e.Caught? && e.fault.RequestError? && e.fault.response.Some?
                            && ClientError(e.fault.response.value)
    ensures v.Escaped? <==> e.BadSize? || (e.Caught? && e.fault == RequestError(None))
    ensures e.BadSize? ==> v == Escaped(ValueError)
  {
    match e
    case Completed => Succeeded
    case OverTime => Retry(OverallTimeout)
    case BadSize => Escaped(ValueError)
    case Caught(ConnectTimeout, _) => Retry(ConnectTimedOut)
    case Caught(ReadTimeout, received) => Retry(if received then Stalled else NoResponse)
    case Caught(RequestError(None), _) => Escaped(AttributeError)
    case Caught(RequestError(Some(status)), _) =>
      if ClientError(status) then GiveUp(status) else Retry(HttpFailed(status))
  }

  /**
   * The last `except` clause with the missing check added: a
   * `RequestException` without a response is a transport failure and is
   * retried like the other failures.
   */
  function JudgeGuarded(e: Ending): (v: Verdict)
    ensures v.Escaped? <==> e.BadSize?
    ensures !e.Caught? || e.fault != RequestError(None) ==> v == Judge(e)
    ensures e.Caught? && e.fault == RequestError(None) ==> v == Retry(TransportFailed)
  {
    match e
    case Caught(RequestError(None), _) => Retry(TransportFailed)
    case _ => Judge(e)
  }

  /** The two classifications differ only on a request error that carries no response. */
  lemma GuardOnlyChangesResponselessErrors(f: Fault, received: bool)
    ensures Judge(Caught(f, received)) != JudgeGuarded(Caught(f, received)) <==> f == RequestError(None)
    ensures Judge(Caught(RequestError(None), received)) == Escaped(AttributeError)
  {
  }

  /** Every HTTP status from 400 to 499, 429 included, stops the loop; every other status is retried. */
  lemma StatusClassification(status: int, received: bool)
    ensures ClientError(status) ==> Judge(Caught(RequestError(Some(status)), received)) == GiveUp(status)
    ensures Judge(Caught(RequestError(Some(429)), received)) == GiveUp(429)
    ensures !ClientError(status) ==>
              Judge(Caught(RequestError(Some(status)), received)) == Retry(HttpFailed(status))
  {
  }

  /**
   * A read timeout is reported as a stall exactly when this attempt had
   * already received data, which only happens once a response arrived.
   */
  lemma StallNeedsData(net: Network, limit: Option<int>, start: real)
    requires Perform(net, limit, start).ending == Caught(ReadTimeout, true)
    ensures net.Responded? && net.cut == Some(ReadTimeout)
    ensures AnyData(net.chunks)
  {
    var chunks := net.chunks;
    ReceiveSpec(chunks, limit, start);
    var k := FirstExpired(chunks, limit, start);
    var i :| 0 <= i < k && chunks[..k][i].data != [];
    assert chunks[i].data != [];
  }

  /**
   * Both branches of the read-timeout clause: a body cut off by a read
   * timeout before the deadline counts as a stall exactly when some of its
   * chunks carried data, and as an unresponsive server otherwise.
   */
  lemma ReadTimeoutClassification(chunks: seq<Chunk>, limit: Option<int>, start: real)
    requires FirstExpired(chunks, limit, start) == |chunks|
    ensures Judge(Perform(Responded(Usable, chunks, Some(ReadTimeout)), limit, start).ending)
         == Retry(if AnyData(chunks) then Stalled else NoResponse)
  {
    ReceiveSpec(chunks, limit, start);
    assert chunks[..|chunks|] == chunks;
  }
}

=== FILE: base.dfy ===
/** Small shared vocabulary: optional values and bytes. */
module Base {

  /** Python's `None` or a value. */
  datatype Option<+T> = None | Some(value: T)

  /** One octet of a downloaded body. */
  newtype byte = x: int | 0 <= x < 256

  /** Concatenation of a sequence of byte strings, in order. */
  function Flatten(parts: seq<seq<byte>>): (r: seq<byte>)
  {
    if |parts| == 0 then [] else Flatten(parts[..|parts| - 1]) + parts[|parts| - 1]
  }

  /** Sum of the lengths of a sequence of byte strings. */
  function TotalLength(parts: seq<seq<byte>>): nat
  {
    if |parts| == 0 then 0 else TotalLength(parts[..|parts| - 1]) + |parts[|parts| - 1]|
  }

  /** The concatenation is as long as the parts together. */
  lemma {:induction false} FlattenLength(parts: seq<seq<byte>>)
    ensures |Flatten(parts)| == TotalLength(parts)
  {
    if |parts| > 0 {
      FlattenLength(parts[..|parts| - 1]);
    }
  }

  /** Concatenating two runs of parts one after the other concatenates their results. */
  lemma {:induction false} FlattenAppend(a: seq<seq<byte>>, b: seq<seq<byte>>)
    ensures Flatten(a + b) == Flatten(a) + Flatten(b)
    decreases |b|
  {
    if |b| == 0 {
      assert a + b == a;
    } else {
      var b' := b[..|b| - 1];
      assert (a + b)[..|a + b| - 1] == a + b';
      FlattenAppend(a, b');
    }
  }
}

=== FILE: batch.dfy ===
/**
 * `download_files_from_list`: one `download_file` call per URL, in list
 * order, counting the calls that return `True`. An exception escaping a call
 * escapes the whole batch, so no summary is printed.
 */
module Batch {
  import opened Base
  import opened Attempt
  import opened Retry
  import opened Engine

  /** What the batch ends with: the printed counts, or the exception that escaped the `index`-th call. */
  datatype Summary = Finished(successful: nat, total: nat) | Aborted(error: Escape, index: nat)

  /** The positions of the calls that returned `True`. */
  function SuccessfulCalls(rs: seq<Result>): set<nat>
  {
    set i: nat | i < |rs| && rs[i] == Downloaded
  }

  /** The counter: the number of calls that returned `True`, counted one call at a time. */
  function Successes(rs: seq<Result>): (n: nat)
    ensures n == |SuccessfulCalls(rs)| <= |rs|
  {
    if |rs| == 0 then
      assert SuccessfulCalls(rs) == {};
      0
    else
      var last := |rs| - 1;
      var init := rs[..last];
      var before := Successes(init);
      if rs[last] == Downloaded then
        assert SuccessfulCalls(rs) == SuccessfulCalls(init) + {last};
        before + 1
      else
        assert SuccessfulCalls(rs) == SuccessfulCalls(init);
        before
  }

  /** The position of the first call that raised, or the number of calls when none did. */
  function FirstCrash(rs: seq<Result>): (k: nat)
    ensures k <= |rs|
    ensures k < |rs| ==> rs[k].Crashed?
    ensures forall i :: 0 <= i < k ==> !rs[i].Crashed?
  {
    if |rs| == 0 then 0
    else if rs[0].Crashed? then 0
    else 1 + FirstCrash(rs[1..])
  }

  /**
   * The batch, given the result each call would have: the calls run in
   * order until one raises, and the counter counts the successful ones.
   */
  function RunBatch(urls: seq<string>, rs: seq<Result>): (s: Summary)
    requires |rs| == |urls|
    ensures s.Finished? <==> forall i :: 0 <= i < |rs| ==> !rs[i].Crashed?
    ensures s.Finished? ==> s.total == |urls| && s.successful == |SuccessfulCalls(rs)|
    ensures s.Finished? ==> s.successful <= s.total
    ensures s.Aborted? ==> s.index < |rs| && rs[s.index] == Crashed(s.error)
                           && forall i :: 0 <= i < s.index ==> !rs[i].Crashed?
  {
    var k := FirstCrash(rs);
    if k < |rs| then Aborted(rs[k].error, k)
    else Finished(Successes(rs), |urls|)
  }

  /** The loop of `download_files_from_list`, over the results of its calls. */
  method DownloadFilesFromList(urls: seq<string>, rs: seq<Result>) returns (s: Summary)
    requires |rs| == |urls|
    ensures s == RunBatch(urls, rs)
  {
    var successful := 0;
    var total := |urls|;
    var i := 0;
    while i < |urls|
      invariant i <= |urls|
      invariant forall j :: 0 <= j < i ==> !rs[j].Crashed?
      invariant successful == Successes(rs[..i])
    {
      if rs[i].Crashed? {
        CrashIsFirst(rs, i);
        return Aborted(rs[i].error, i);
      }
      if rs[i] == Downloaded {
        successful := successful + 1;
      }
      assert rs[..i + 1][..i] == rs[..i];
      i := i + 1;
    }
    assert rs[..i] == rs;
    NoCrashMeansEnd(rs);
    s := Finished(successful, total);
  }

  /** A raising call with none raising before it is the first crash. */
  lemma {:induction false} CrashIsFirst(rs: seq<Result>, i: nat)
    requires i < |rs| && rs[i].Crashed?
    requires forall j :: 0 <= j < i ==> !rs[j].Crashed?
    ensures FirstCrash(rs) == i
  {
    if i > 0 {
      CrashIsFirst(rs[1..], i - 1);
    }
  }

  /** When no call raises, the first crash lies past the end of the list. */
  lemma {:induction false} NoCrashMeansEnd(rs: seq<Result>)
    requires forall j :: 0 <= j < |rs| ==> !rs[j].Crashed?
    ensures FirstCrash(rs) == |rs|
  {
    if |rs| > 0 {
      NoCrashMeansEnd(rs[1..]);
    }
  }

  /** Two lists run back to back count the successes of both. */
  lemma {:induction false} SuccessesAppend(a: seq<Result>, b: seq<Result>)
    ensures Successes(a + b) == Successes(a) + Successes(b)
    decreases |b|
  {
    if |b| == 0 {
      assert a + b == a;
    } else {
      var b' := b[..|b| - 1];
      assert (a + b)[..|a + b| - 1] == a + b';
      SuccessesAppend(a, b');
    }
  }

  /**
   * With `download_file` as written, every call raises `NameError` before
   * its first request, so a non-empty list ends at its first URL without a
   * summary, and only an empty list prints one (`0` out of `0`).
   */
  lemma AsWrittenBatchStopsAtFirstUrl(urls: seq<string>, cfg: Config, scripts: seq<seq<Network>>, disks: seq<Option<seq<byte>>>, rs: seq<Result>)
    requires |rs| == |urls| == |scripts| == |disks|
    requires forall i :: 0 <= i < |rs| ==> rs[i] == DownloadFileAsWritten(cfg, scripts[i], disks[i]).result
    ensures RunBatch(urls, rs) == if |urls| == 0 then Finished(0, 0) else Aborted(NameError, 0)
  {
    if |urls| == 0 {
      assert SuccessfulCalls(rs) == {};
    } else {
      CrashIsFirst(rs, 0);
    }
  }

  /**
   * With `download_file` as corrected, a call raises only when a size
   * header cannot be parsed, so a batch that does not print its summary
   * stopped on a `ValueError` from a server whose size header does not parse.
   * Every call takes its own start time.
   */
  lemma GuardedBatchAbortsOnlyOnBadSize(urls: seq<string>, cfg: Config, scripts: seq<seq<Network>>, starts: seq<real>, disks: seq<Option<seq<byte>>>, rs: seq<Result>)
    requires |rs| == |urls| == |scripts| == |starts| == |disks|
    requires forall i :: 0 <= i < |rs| ==> cfg.retryCount < |scripts[i]|
    requires forall i :: 0 <= i < |rs| ==> rs[i] == DownloadFileGuarded(cfg, scripts[i], starts[i], disks[i]).result
    ensures var s := RunBatch(urls, rs);
      s.Aborted? ==> s.error == ValueError && exists j :: 0 <= j < |scripts[s.index]| && scripts[s.index][j].Responded? && scripts[s.index][j].size == Unparsable
  {
    var s := RunBatch(urls, rs);
    if s.Aborted? {
      var k := s.index;
      GuardedCrashNeedsBadSize(cfg, scripts[k], starts[k], disks[k]);
      var j := DownloadFileGuarded(cfg, scripts[k], starts[k], disks[k]).made - 1;
      assert scripts[k][j].Responded? && scripts[k][j].size == Unparsable;
    }
  }
}

=== FILE: engine.dfy ===
/**
 * `download_file`: the attempts, each classified, driven by the retry loop,
 * with the state of the target file after the call.
 */
module Engine {
  import opened Base
  import opened Transfer
  import opened Attempt
  import opened Retry

  /**
   * The arguments the loop depends on: `total_timeout` (`None` or seconds)
   * and `retry_count`. The connect and read timeouts only configure the HTTP
   * layer, whose behaviour is the `Network` input of each attempt.
   */
  datatype Config = Config(totalTimeout: Option<int>, retryCount: int)

  /** The outcome of a call, with the contents of the target file afterwards (`None` when absent). */
  datatype Download = Download(result: Result, made: nat, sleeps: seq<nat>, file: Option<seq<byte>>)

  /** Every attempt of the script performed against the one start time taken before the loop. */
  function Effects(script: seq<Network>, limit: Option<int>, start: real): (es: seq<Effect>)
    ensures |es| == |script|
    ensures forall i :: 0 <= i < |script| ==> es[i] == Perform(script[i], limit, start)
  {
    seq(|script|, i requires 0 <= i < |script| => Perform(script[i], limit, start))
  }

  /** The classification, as written, of every attempt. */
  function Verdicts(es: seq<Effect>): (vs: seq<Verdict>)
    ensures |vs| == |es|
    ensures forall i :: 0 <= i < |es| ==> vs[i] == Judge(es[i].ending)
  {
    seq(|es|, i requires 0 <= i < |es| => Judge(es[i].ending))
  }

  /** The classification with the response check added, of every attempt. */
  function GuardedVerdicts(es: seq<Effect>): (vs: seq<Verdict>)
    ensures |vs| == |es|
    ensures forall i :: 0 <= i < |es| ==> vs[i] == JudgeGuarded(es[i].ending)
  {
    seq(|es|, i requires 0 <= i < |es| => JudgeGuarded(es[i].ending))
  }

  /**
   * The target file after a sequence of attempts: every attempt that opens
   * it with mode `"wb"` replaces its contents; the others leave it alone.
   */
  function LastFile(es: seq<Effect>, disk: Option<seq<byte>>): Option<seq<byte>>
  {
    if |es| == 0 then disk
    else if es[|es| - 1].file.Some? then es[|es| - 1].file
    else LastFile(es[..|es| - 1], disk)
  }

  /**
   * Truncation on opening: the file holds what the last attempt that opened
   * it wrote, whatever was there before and whatever earlier attempts wrote;
   * when no attempt opened it, it is as it was.
   */
  lemma {:induction false} LastFileIsLastWrite(es: seq<Effect>, disk: Option<seq<byte>>, j: nat)
    requires j < |es| && es[j].file.Some?
    requires forall i :: j < i < |es| ==> es[i].file.None?
    ensures LastFile(es, disk) == es[j].file
  {
    if j < |es| - 1 {
      var init := es[..|es| - 1];
      assert init[j] == es[j];
      LastFileIsLastWrite(init, disk, j);
    }
  }

  /** When no attempt opens the file, it is left as it was before the call. */
  lemma {:induction false} LastFileUntouched(es: seq<Effect>, disk: Option<seq<byte>>)
    requires forall i :: 0 <= i < |es| ==> es[i].file.None?
    ensures LastFile(es, disk) == disk
  {
    if |es| > 0 {
      LastFileUntouched(es[..|es| - 1], disk);
    }
  }

  /** The result of the retry loop together with the file left by the attempts it made. */
  function Conclude(es: seq<Effect>, vs: seq<Verdict>, retryCount: int, disk: Option<seq<byte>>): (d: Download)
    requires |vs| == |es| && retryCount < |vs|
    ensures d.made <= |es|
    ensures (d.result, d.made, d.sleeps) == (Drive(vs, retryCount).result, Drive(vs, retryCount).made, Drive(vs, retryCount).sleeps)
  {
    var run := Drive(vs, retryCount);
    Download(run.result, run.made, run.sleeps, LastFile(es[..run.made], disk))
  }

  /**
   * `download_file` with `time` imported, and with the `except` clauses as
   * written. A negative `retry_count` makes no attempt and leaves the file
   * alone. Otherwise at most `retry_count + 1` attempts are made, each
   * against the same start time; every attempt but the last was retried and
   * was followed by a sleep, the k-th lasting `2^k` seconds; the last
   * attempt's classification decides the result; and a retried last attempt
   * means the attempts ran out.
   */
  function DownloadFile(cfg: Config, script: seq<Network>, start: real, disk: Option<seq<byte>>): (d: Download)
    requires cfg.retryCount < |script|
    ensures cfg.retryCount < 0 ==> d == Download(NotDownloaded, 0, [], disk)
    ensures cfg.retryCount >= 0 ==>
      && 1 <= d.made <= cfg.retryCount + 1
      && |d.sleeps| == d.made - 1
      && (forall k :: 0 <= k < |d.sleeps| ==> d.sleeps[k] == Pow2(k + 1))
      && (forall i :: 0 <= i < d.made - 1 ==> Judge(Perform(script[i], cfg.totalTimeout, start).ending).Retry?)
      && d.result == Final(Judge(Perform(script[d.made - 1], cfg.totalTimeout, start).ending))
      && (Judge(Perform(script[d.made - 1], cfg.totalTimeout, start).ending).Retry? ==> d.made == cfg.retryCount + 1)
  {
    var es := Effects(script, cfg.totalTimeout, start);
    var d := Conclude(es, Verdicts(es), cfg.retryCount, disk);
    assert cfg.retryCount < 0 ==> es[..0] == [];
    d
  }

  /**
   * `download_file` with `time` imported and with the response check added
   * to the last `except` clause: the same loop as `DownloadFile`, driven by
   * the guarded classification, from which `AttributeError` never escapes.
   */
  function DownloadFileGuarded(cfg: Config, script: seq<Network>, start: real, disk: Option<seq<byte>>): (d: Download)
    requires cfg.retryCount < |script|
    ensures cfg.retryCount < 0 ==> d == Download(NotDownloaded, 0, [], disk)
    ensures cfg.retryCount >= 0 ==>
      && 1 <= d.made <= cfg.retryCount + 1
      && |d.sleeps| == d.made - 1
      && (forall k :: 0 <= k < |d.sleeps| ==> d.sleeps[k] == Pow2(k + 1))
      && (forall i :: 0 <= i < d.made - 1 ==> JudgeGuarded(Perform(script[i], cfg.totalTimeout, start).ending).Retry?)
      && d.result == Final(JudgeGuarded(Perform(script[d.made - 1], cfg.totalTimeout, start).ending))
      && (JudgeGuarded(Perform(script[d.made - 1], cfg.totalTimeout, start).ending).Retry? ==> d.made == cfg.retryCount + 1)
    ensures d.result != Crashed(AttributeError)
  {
    var es := Effects(script, cfg.totalTimeout, start);
    var vs := GuardedVerdicts(es);
    var d := Conclude(es, vs, cfg.retryCount, disk);
    assert cfg.retryCount < 0 ==> es[..0] == [];
    assert cfg.retryCount >= 0 ==> !vs[d.made - 1].Escaped? || vs[d.made - 1].error == ValueError;
    d
  }

  /**
   * With the response check added, the only exception left to escape is the
   * `ValueError` of a size header that does not parse, raised by the last
   * attempt made.
   */
  lemma GuardedCrashNeedsBadSize(cfg: Config, script: seq<Network>, start: real, disk: Option<seq<byte>>)
    requires cfg.retryCount < |script|
    requires DownloadFileGuarded(cfg, script, start, disk).result.Crashed?
    ensures var d := DownloadFileGuarded(cfg, script, start, disk);
      && d.result == Crashed(ValueError) && 1 <= d.made
      && script[d.made - 1].Responded? && script[d.made - 1].size == Unparsable
  {
    var es := Effects(script, cfg.totalTimeout, start);
    var vs := GuardedVerdicts(es);
    var d := DownloadFileGuarded(cfg, script, start, disk);
    assert vs[d.made - 1].Escaped?;
    assert es[d.made - 1].ending == BadSize;
  }

  /**
   * `download_file` exactly as written: `time` is never imported, so the
   * call to `time.time()` that takes the start time raises `NameError`
   * before the first attempt. The destination folder has been created by
   * then; the target file has not been touched.
   */
  function DownloadFileAsWritten(cfg: Config, script: seq<Network>, disk: Option<seq<byte>>): (d: Download)
    ensures d.result == Crashed(NameError)
    ensures d.made == 0 && d.sleeps == [] && d.file == disk
  {
    Download(Crashed(NameError), 0, [], disk)
  }

  /**
   * What the missing import costs: a server that answers the first request
   * with the whole body before the deadline makes the call succeed once
   * `time` is imported, but the code as written raises `NameError` whatever
   * the server does.
   */
  lemma MissingImportLosesEveryDownload(cfg: Config, body: seq<Chunk>, rest: seq<Network>, start: real, disk: Option<seq<byte>>)
    requires FirstExpired(body, cfg.totalTimeout, start) == |body|
    requires 0 <= cfg.retryCount < 1 + |rest|
    ensures DownloadFile(cfg, [Responded(Usable, body, None)] + rest, start, disk).result == Downloaded
    ensures DownloadFileAsWritten(cfg, [Responded(Usable, body, None)] + rest, disk).result == Crashed(NameError)
  {
    CompletedAttemptDownloads(cfg, [Responded(Usable, body, None)] + rest, start, disk, 0, body);
  }

  /**
   * What the missing response check costs: a refused connection followed by
   * a good response is a download after one retry and a two-second sleep
   * with the check, but an `AttributeError` after the first attempt as
   * written.
   */
  lemma ResponselessErrorEscapes(start: real, disk: Option<seq<byte>>)
    ensures var script := [Raised(RequestError(None)), Responded(Usable, [], None)];
      && DownloadFile(Config(None, 1), script, start, disk) == Download(Crashed(AttributeError), 1, [], disk)
      && DownloadFileGuarded(Config(None, 1), script, start, disk) == Download(Downloaded, 2, [2], Some([]))
  {
    var script := [Raised(RequestError(None)), Responded(Usable, [], None)];
    var es := Effects(script, None, start);
    assert es[1] == Effect(Completed, Some([]));
    assert es[..1] == [Effect(Caught(RequestError(None), false), None)];
    assert es[..2][..1] == es[..1];
    var raw := Verdicts(es);
    assert raw == [Escaped(AttributeError), Succeeded];
    assert Drive(raw, 1).made == 1;
    assert Drive(raw, 1).result == Crashed(AttributeError);
    LastFileUntouched(es[..1], disk);
    var vs := GuardedVerdicts(es);
    assert vs == [Retry(TransportFailed), Succeeded];
    var run := Drive(vs, 1);
    assert run.made == 2;
    assert run.sleeps == [Pow2(1)];
  }

  /**
   * A successful call leaves the whole body of the successful attempt in
   * the file: the concatenated data of all its chunks, with nothing from
   * earlier attempts or from the file's previous contents.
   */
  lemma DownloadedFileIsWholeBody(cfg: Config, script: seq<Network>, start: real, disk: Option<seq<byte>>)
    requires cfg.retryCount < |script|
    requires DownloadFile(cfg, script, start, disk).result == Downloaded
    ensures var d := DownloadFile(cfg, script, start, disk);
      && 1 <= d.made
      && script[d.made - 1].Responded? && script[d.made - 1].size == Usable && script[d.made - 1].cut.None?
      && d.file == Some(Flatten(Datas(script[d.made - 1].chunks)))
  {
    var es := Effects(script, cfg.totalTimeout, start);
    var vs := Verdicts(es);
    var d := DownloadFile(cfg, script, start, disk);
    var j := d.made - 1;
    DownloadedIff(vs, cfg.retryCount);
    assert vs[j] == Succeeded;
    var net := script[j];
    PerformSpec(net, cfg.totalTimeout, start);
    assert net.chunks[..|net.chunks|] == net.chunks;
    var made := es[..d.made];
    assert made[j] == es[j];
    LastFileIsLastWrite(made, disk, j);
  }

  /**
   * The converse: when an allowed attempt gets a response with a parsable
   * size and its whole body before the deadline, and every attempt before it
   * was retried, the call returns `True`, and that attempt is the last one.
   */
  lemma CompletedAttemptDownloads(cfg: Config, script: seq<Network>, start: real, disk: Option<seq<byte>>,
                                  j: nat, chunks: seq<Chunk>)
    requires j <= cfg.retryCount < |script|
    requires script[j] == Responded(Usable, chunks, None)
    requires FirstExpired(chunks, cfg.totalTimeout, start) == |chunks|
    requires forall i :: 0 <= i < j ==> Judge(Perform(script[i], cfg.totalTimeout, start).ending).Retry?
    ensures DownloadFile(cfg, script, start, disk).result == Downloaded
    ensures DownloadFile(cfg, script, start, disk).made == j + 1
  {
    PerformSpec(script[j], cfg.totalTimeout, start);
  }

  /**
   * The deadline counts from the start taken once before the loop, not from
   * the start of each attempt: an attempt that runs out of time ends every
   * later attempt that reaches the body at its first chunk, with nothing
   * written, however many attempts remain.
   */
  lemma OverTimeIsPermanent(a: Network, b: Network, limit: Option<int>, start: real, t: real)
    requires Perform(a, limit, start).ending == OverTime
    requires forall i :: 0 <= i < |a.chunks| ==> a.chunks[i].at <= t
    requires b.Responded? && b.size == Usable && |b.chunks| > 0 && t <= b.chunks[0].at
    ensures Perform(b, limit, start) == Effect(OverTime, Some([]))
  {
    PerformSpec(a, limit, start);
    var k := FirstExpired(a.chunks, limit, start);
    ExpiryPersists(limit, start, a.chunks[k].at, b.chunks[0].at);
    LateTransferWritesNothing(b.chunks, limit, start);
  }

  /**
   * A 4xx status raised by the status check ends the call: after only
   * retried attempts, an allowed attempt whose request error carries a
   * client-error status returns `False` at once, with only the sleeps of the
   * attempts before it.
   */
  lemma ClientErrorStopsDownload(cfg: Config, script: seq<Network>, start: real, disk: Option<seq<byte>>, j: nat, status: int)
    requires j <= cfg.retryCount < |script|
    requires script[j] == Raised(RequestError(Some(status))) && ClientError(status)
    requires forall i :: 0 <= i < j ==> Judge(Perform(script[i], cfg.totalTimeout, start).ending).Retry?
    ensures var d := DownloadFile(cfg, script, start, disk);
      d.result == NotDownloaded && d.made == j + 1 && d.sleeps == BackoffSchedule(j)
  {
    ClientErrorShortCircuits(Verdicts(Effects(script, cfg.totalTimeout, start)), cfg.retryCount, j);
  }

  /**
   * With a 10-second total timeout, a second attempt whose first chunk
   * arrives 11 seconds after the call started is cut off.
   */
  lemma SecondAttemptSharesTheDeadline(body: seq<byte>)
    ensures var script := [Raised(ConnectTimeout), Responded(Usable, [Chunk(body, 11.0)], None)];
      DownloadFile(Config(Some(10), 1), script, 0.0, None) == Download(NotDownloaded, 2, [2], Some([]))
  {
    var script := [Raised(ConnectTimeout), Responded(Usable, [Chunk(body, 11.0)], None)];
    var es := Effects(script, Some(10), 0.0);
    LateTransferWritesNothing([Chunk(body, 11.0)], Some(10), 0.0);
    assert es[1] == Effect(OverTime, Some([]));
    var vs := Verdicts(es);
    assert vs == [Retry(ConnectTimedOut), Retry(OverallTimeout)];
    ExhaustedRun(vs, 1);
    assert BackoffSchedule(1) == [2];
    assert es[..2] == es;
  }
}

=== FILE: retry.dfy ===
/**
 * The retry loop of `download_file`, as a pure function of the verdicts of
 * successive attempts: `attempts` starts at 0, the loop runs while
 * `attempts <= retry_count`, and each retried failure increments `attempts`
 * and, when another attempt is allowed, sleeps `2**attempts` seconds.
 */
module Retry {
  import opened Attempt

  /** What `download_file` gives its caller: `True`, `False`, or an exception that escapes. */
  datatype Result = Downloaded | NotDownloaded | Crashed(error: Escape)

  /** The result, the number of attempts made, and the sleep durations in the order slept. */
  datatype Run = Run(result: Result, made: nat, sleeps: seq<nat>)

  /** `2**n`, unbounded as in Python. */
  function Pow2(n: nat): (p: nat)
    ensures p >= 1
  {
    if n == 0 then 1 else 2 * Pow2(n - 1)
  }

  /** The result an attempt with a final verdict gives. */
  function Final(v: Verdict): Result
  {
    match v
    case Succeeded => Downloaded
    case GiveUp(_) => NotDownloaded
    case Escaped(e) => Crashed(e)
    case Retry(_) => NotDownloaded
  }

  /**
   * The loop from the pass where the counter holds `attempts`: the
   * `attempts`-th verdict is the one that pass sees, since the counter grows
   * by one per retried pass and no pass ends otherwise without leaving.
   */
  function Loop(vs: seq<Verdict>, attempts: nat, retryCount: int): (r: Run)
    requires retryCount < |vs|
    ensures attempts > retryCount ==> r == Run(NotDownloaded, 0, [])
    ensures attempts <= retryCount ==>
      && 1 <= r.made <= retryCount + 1 - attempts
      && |r.sleeps| == r.made - 1
      && (forall k :: 0 <= k < |r.sleeps| ==> r.sleeps[k] == Pow2(attempts + 1 + k))
      && (forall i :: attempts <= i < attempts + r.made - 1 ==> vs[i].Retry?)
      && r.result == Final(vs[attempts + r.made - 1])
      && (vs[attempts + r.made - 1].Retry? ==> attempts + r.made == retryCount + 1)
    decreases retryCount + 1 - attempts
  {
    if attempts > retryCount then Run(NotDownloaded, 0, [])
    else
      match vs[attempts]
      case Succeeded => Run(Downloaded, 1, [])
      case GiveUp(_) => Run(NotDownloaded, 1, [])
      case Escaped(e) => Run(Crashed(e), 1, [])
      case Retry(_) =>
        var next := attempts + 1;
        var rest := Loop(vs, next, retryCount);
        if next <= retryCount then Run(rest.result, 1 + rest.made, [Pow2(next)] + rest.sleeps)
        else Run(NotDownloaded, 1, [])
  }

  /**
   * The whole loop. When `retry_count` is negative the body never runs and
   * the result is `False`. Otherwise at most `retry_count + 1` attempts are
   * made; every attempt but the last was retried and was followed by one
   * sleep, the k-th sleep lasting `2^k` seconds; and the last attempt's
   * verdict decides the result, a retried last attempt meaning that the
   * attempts ran out.
   */
  function Drive(vs: seq<Verdict>, retryCount: int): (r: Run)
    requires retryCount < |vs|
    ensures retryCount < 0 ==> r == Run(NotDownloaded, 0, [])
    ensures retryCount >= 0 ==>
      && 1 <= r.made <= retryCount + 1
      && |r.sleeps| == r.made - 1
      && (forall k :: 0 <= k < |r.sleeps| ==> r.sleeps[k] == Pow2(k + 1))
      && (forall i :: 0 <= i < r.made - 1 ==> vs[i].Retry?)
      && r.result == Final(vs[r.made - 1])
      && (vs[r.made - 1].Retry? ==> r.made == retryCount + 1)
  {
    Loop(vs, 0, retryCount)
  }

  /** Index of the first verdict that is not a retry, or `|vs|` when all are retries. */
  function FirstFinal(vs: seq<Verdict>): (j: nat)
    ensures j <= |vs|
    ensures forall i :: 0 <= i < j ==> vs[i].Retry?
    ensures j < |vs| ==> !vs[j].Retry?
  {
    if |vs| == 0 || !vs[0].Retry? then 0 else 1 + FirstFinal(vs[1..])
  }

  /**
   * The loop stops at the first attempt that succeeds, gives up or raises,
   * provided it comes within the `retry_count + 1` allowed attempts; no
   * later attempt is made. Otherwise all allowed attempts are made and fail.
   */
  lemma DriveStopsAtFirstFinal(vs: seq<Verdict>, retryCount: int)
    requires 0 <= retryCount < |vs|
    ensures var j, r := FirstFinal(vs), Drive(vs, retryCount);
      && (j <= retryCount ==> r.made == j + 1 && r.result == Final(vs[j]))
      && (j > retryCount ==> r.made == retryCount + 1 && r.result == NotDownloaded)
  {
  }

  /**
   * `download_file` returns `True` exactly when some allowed attempt
   * succeeds and every attempt before it was retried; in that case the
   * successful attempt is the last one made.
   */
  lemma DownloadedIff(vs: seq<Verdict>, retryCount: int)
    requires retryCount < |vs|
    ensures Drive(vs, retryCount).result == Downloaded <==>
      exists j :: 0 <= j <= retryCount && vs[j].Succeeded? && forall i :: 0 <= i < j ==> vs[i].Retry?
    ensures Drive(vs, retryCount).result == Downloaded ==> vs[Drive(vs, retryCount).made - 1].Succeeded?
  {
    var r := Drive(vs, retryCount);
    if retryCount >= 0 {
      var j := r.made - 1;
      if r.result == Downloaded {
        assert vs[j].Succeeded?;
      }
      forall j' | 0 <= j' <= retryCount && vs[j'].Succeeded? && (forall i :: 0 <= i < j' ==> vs[i].Retry?)
        ensures r.result == Downloaded
      {
        assert j' == j;
      }
    }
  }

  /**
   * An attempt that gives up on a client error ends the loop at once: it is
   * the last attempt, the result is `False`, and no sleep follows it.
   */
  lemma ClientErrorShortCircuits(vs: seq<Verdict>, retryCount: int, j: nat)
    requires j <= retryCount < |vs|
    requires vs[j].GiveUp?
    requires forall i :: 0 <= i < j ==> vs[i].Retry?
    ensures Drive(vs, retryCount) == Run(NotDownloaded, j + 1, BackoffSchedule(j))
  {
    var r := Drive(vs, retryCount);
    assert r.sleeps == BackoffSchedule(j);
  }

  /** The sleeps `2^1, ..., 2^n` seconds, uncapped. */
  function BackoffSchedule(n: nat): (s: seq<nat>)
    ensures |s| == n
    ensures forall k :: 0 <= k < n ==> s[k] == Pow2(k + 1)
  {
    if n == 0 then [] else BackoffSchedule(n - 1) + [Pow2(n)]
  }

  /**
   * When every allowed attempt is retried, exactly `retry_count + 1`
   * attempts are made, the sleeps are `2^1, ..., 2^retry_count` seconds,
   * and the result is `False`.
   */
  lemma ExhaustedRun(vs: seq<Verdict>, retryCount: int)
    requires 0 <= retryCount < |vs|
    requires forall i :: 0 <= i <= retryCount ==> vs[i].Retry?
    ensures Drive(vs, retryCount) == Run(NotDownloaded, retryCount + 1, BackoffSchedule(retryCount))
  {
    var r := Drive(vs, retryCount);
    assert vs[r.made - 1].Retry?;
  }

  /**
   * The `while` loop as written: the counter, the early returns, and the
   * sleep that follows a retried attempt only when another attempt is
   * allowed.
   */
  method DownloadLoop(vs: seq<Verdict>, retryCount: int) returns (result: Result, made: nat, sleeps: seq<nat>)
    requires retryCount < |vs|
    ensures Run(result, made, sleeps) == Drive(vs, retryCount)
  {
    var attempts: nat := 0;
    made, sleeps := 0, [];
    while attempts <= retryCount
      invariant attempts <= retryCount + 1 || attempts == 0
      invariant Drive(vs, retryCount) == Splice(made, sleeps, Loop(vs, attempts, retryCount))
      decreases retryCount + 1 - attempts
    {
      var v := vs[attempts];
      if !v.Retry? {
        FinalPass(vs, attempts, retryCount, made, sleeps);
        result, made := Final(v), made + 1;
        return;
      }
      RetriedPass(vs, attempts, retryCount, made, sleeps);
      made := made + 1;
      attempts := attempts + 1;
      if attempts <= retryCount {
        sleeps := sleeps + [Pow2(attempts)];
      }
    }
    result := NotDownloaded;
  }

  /** A pass with a final verdict completes the run. */
  lemma FinalPass(vs: seq<Verdict>, attempts: nat, retryCount: int, made: nat, sleeps: seq<nat>)
    requires attempts <= retryCount < |vs| && !vs[attempts].Retry?
    ensures Splice(made, sleeps, Loop(vs, attempts, retryCount)) == Run(Final(vs[attempts]), made + 1, sleeps)
  {
    assert sleeps + [] == sleeps;
  }

  /** A retried pass hands over to the next pass, with one sleep when another attempt is allowed. */
  lemma RetriedPass(vs: seq<Verdict>, attempts: nat, retryCount: int, made: nat, sleeps: seq<nat>)
    requires attempts <= retryCount < |vs| && vs[attempts].Retry?
    ensures Splice(made, sleeps, Loop(vs, attempts, retryCount))
         == Splice(made + 1, sleeps + (if attempts + 1 <= retryCount then [Pow2(attempts + 1)] else []),
                   Loop(vs, attempts + 1, retryCount))
  {
    var rest := Loop(vs, attempts + 1, retryCount);
    var step := if attempts + 1 <= retryCount then [Pow2(attempts + 1)] else [];
    RetriedLoop(vs, attempts, retryCount);
    assert sleeps + (step + rest.sleeps) == (sleeps + step) + rest.sleeps;
  }

  /** The loop from a retried pass is that pass followed by the loop from the next one. */
  lemma RetriedLoop(vs: seq<Verdict>, attempts: nat, retryCount: int)
    requires attempts <= retryCount < |vs| && vs[attempts].Retry?
    ensures Loop(vs, attempts, retryCount)
         == Splice(1, if attempts + 1 <= retryCount then [Pow2(attempts + 1)] else [], Loop(vs, attempts + 1, retryCount))
  {
  }

  /** The run of the passes already made followed by the run of the remaining passes. */
  function Splice(made: nat, sleeps: seq<nat>, rest: Run): Run
  {
    Run(rest.result, made + rest.made, sleeps + rest.sleeps)
  }
}

=== FILE: text.dfy ===
/**
 * Python's `str.strip`: removal of the maximal run of characters drawn from a
 * given set at each end of a string.
 */
module Text {

  /** The characters for which Python's `str.isspace` holds, which a bare `strip()` removes. */
  const Whitespace: set<char> := {
    '\t', '\n', '\U{0b}', '\U{0c}', '\r', '\U{1c}', '\U{1d}', '\U{1e}', '\U{1f}', ' ',
    '\U{85}', '\U{a0}', '\U{1680}',
    '\U{2000}', '\U{2001}', '\U{2002}', '\U{2003}', '\U{2004}', '\U{2005}',
    '\U{2006}', '\U{2007}', '\U{2008}', '\U{2009}', '\U{200a}',
    '\U{2028}', '\U{2029}', '\U{202f}', '\U{205f}', '\U{3000}'
  }

  /** Number of leading characters of `s` that belong to `cs`. */
  function Leading(s: string, cs: set<char>): (n: nat)
    ensures n <= |s|
  {
    if |s| == 0 || s[0] !in cs then 0 else 1 + Leading(s[1..], cs)
  }

  /** `Leading` counts the maximal run of `cs` characters at the front. */
  lemma {:induction false} LeadingSpec(s: string, cs: set<char>)
    ensures forall k :: 0 <= k < Leading(s, cs) ==> s[k] in cs
    ensures Leading(s, cs) < |s| ==> s[Leading(s, cs)] !in cs
  {
    if |s| > 0 && s[0] in cs {
      LeadingSpec(s[1..], cs);
    }
  }

  /** Number of trailing characters of `s` that belong to `cs`. */
  function Trailing(s: string, cs: set<char>): (n: nat)
    ensures n <= |s|
  {
    if |s| == 0 || s[|s| - 1] !in cs then 0 else 1 + Trailing(s[..|s| - 1], cs)
  }

  /** `Trailing` counts the maximal run of `cs` characters at the back. */
  lemma {:induction false} TrailingSpec(s: string, cs: set<char>)
    ensures forall k :: |s| - Trailing(s, cs) <= k < |s| ==> s[k] in cs
    ensures Trailing(s, cs) < |s| ==> s[|s| - Trailing(s, cs) - 1] !in cs
  {
    if |s| > 0 && s[|s| - 1] in cs {
      TrailingSpec(s[..|s| - 1], cs);
    }
  }

  /**
   * `s.strip(cs)`: the infix of `s` left after removing every leading and
   * every trailing character that belongs to `cs`: it starts right after
   * the leading run, is followed only by `cs` characters, and neither
   * starts nor ends with one.
   */
  function Strip(s: string, cs: set<char>): (r: string)
    ensures |r| <= |s|
    ensures Leading(s, cs) + |r| <= |s| && r == s[Leading(s, cs)..Leading(s, cs) + |r|]
    ensures forall k :: Leading(s, cs) + |r| <= k < |s| ==> s[k] in cs
    ensures |r| > 0 ==> r[0] !in cs && r[|r| - 1] !in cs
    ensures (forall k :: 0 <= k < |s| ==> s[k] in cs) ==> r == []
  {
    var rest := s[Leading(s, cs)..];
    LeadingSpec(s, cs);
    TrailingSpec(rest, cs);
    rest[..|rest| - Trailing(rest, cs)]
  }

  /**
   * What `Strip` keeps: the infix of `s` that starts after the leading run of
   * `cs` characters and is followed only by `cs` characters, and that
   * neither starts nor ends with one.
   */
  lemma StripSpec(s: string, cs: set<char>)
    ensures var r := Strip(s, cs);
      && Leading(s, cs) + |r| <= |s|
      && r == s[Leading(s, cs)..Leading(s, cs) + |r|]
      && (forall k :: Leading(s, cs) + |r| <= k < |s| ==> s[k] in cs)
      && (r != [] ==> r[0] !in cs && r[|r| - 1] !in cs)
  {
    LeadingSpec(s, cs);
    TrailingSpec(s[Leading(s, cs)..], cs);
  }

  /**
   * `Strip` is the only way to cut `s` into a run of `cs` characters, an infix
   * that neither starts nor ends with one, and another run of `cs` characters.
   */
  lemma StripUnique(s: string, cs: set<char>, i: nat, j: nat)
    requires i <= j <= |s|
    requires forall k :: 0 <= k < i ==> s[k] in cs
    requires forall k :: j <= k < |s| ==> s[k] in cs
    requires i < j ==> s[i] !in cs && s[j - 1] !in cs
    ensures Strip(s, cs) == s[i..j]
  {
    StripSpec(s, cs);
    LeadingSpec(s, cs);
    if i == j {
      assert forall k :: 0 <= k < |s| ==> s[k] in cs;
    }
  }

  /** Stripping removes padding drawn from `cs` around an infix that neither starts nor ends with a `cs` character. */
  lemma StripPadding(pre: string, mid: string, post: string, cs: set<char>)
    requires forall k :: 0 <= k < |pre| ==> pre[k] in cs
    requires forall k :: 0 <= k < |post| ==> post[k] in cs
    requires mid != [] ==> mid[0] !in cs && mid[|mid| - 1] !in cs
    ensures Strip(pre + mid + post, cs) == mid
  {
    var s := pre + mid + post;
    assert forall k :: 0 <= k < |pre| ==> s[k] == pre[k];
    assert forall k :: |pre| + |mid| <= k < |s| ==> s[k] == post[k - |pre| - |mid|];
    assert s[|pre|..|pre| + |mid|] == mid;
    StripUnique(s, cs, |pre|, |pre| + |mid|);
  }

  /** A string is stripped for `cs` when neither end is in `cs`. */
  predicate IsStripped(s: string, cs: set<char>)
  {
    s == [] || (s[0] !in cs && s[|s| - 1] !in cs)
  }

  /** Stripping removes only characters of `cs`: whatever is kept is the original when nothing needed removing. */
  lemma StripKeepsStripped(s: string, cs: set<char>)
    requires IsStripped(s, cs)
    ensures Strip(s, cs) == s
  {
    StripSpec(s, cs);
    if s != [] {
      assert Leading(s, cs) == 0;
      assert Trailing(s, cs) == 0;
    }
  }

  /** Stripping twice with the same set is the same as stripping once. */
  lemma StripIdempotent(s: string, cs: set<char>)
    ensures Strip(Strip(s, cs), cs) == Strip(s, cs)
  {
    StripSpec(s, cs);
    StripKeepsStripped(Strip(s, cs), cs);
  }
}

=== FILE: transfer.dfy ===
/**
 * The streamed body transfer inside one attempt of `download_file`: the
 * chunks yielded by the response, the total-timeout check made before each
 * one, and the bytes written to the freshly truncated file.
 */
module Transfer {
  import opened Base

  /**
   * One item yielded by `iter_content`, together with the clock reading that
   * the total-timeout check takes right after the item arrives.
   */
  datatype Chunk = Chunk(data: seq<byte>, at: real)

  /**
   * The total-timeout test: the limit is truthy (neither `None` nor `0`) and
   * more than `limit` seconds have passed since `start`, the single time
   * taken before the first attempt.
   */
  predicate Expired(limit: Option<int>, start: real, now: real)
  {
    limit.Some? && limit.value != 0 && now - start > limit.value as real
  }

  /** A limit of `None` or `0` switches the total-timeout check off. */
  predicate Disabled(limit: Option<int>)
  {
    limit.None? || limit.value == 0
  }

  /**
   * State of the chunk loop: the bytes written to the file so far,
   * `downloaded_bytes`, `received_data`, and whether the loop was left by the
   * total-timeout `TimeoutError`.
   */
  datatype Received = Received(written: seq<byte>, downloaded: nat, received: bool, timedOut: bool)

  /** The data of each chunk, in order. */
  function Datas(chunks: seq<Chunk>): (ds: seq<seq<byte>>)
    ensures |ds| == |chunks|
  {
    seq(|chunks|, i requires 0 <= i < |chunks| => chunks[i].data)
  }

  /** Index of the first chunk whose timeout check fires, or `|chunks|` when none does. */
  function FirstExpired(chunks: seq<Chunk>, limit: Option<int>, start: real): (k: nat)
    ensures k <= |chunks|
    ensures forall i :: 0 <= i < k ==> !Expired(limit, start, chunks[i].at)
    ensures k < |chunks| ==> Expired(limit, start, chunks[k].at)
  {
    if |chunks| == 0 then 0
    else if Expired(limit, start, chunks[0].at) then 0
    else 1 + FirstExpired(chunks[1..], limit, start)
  }

  /** Whether some chunk among `chunks` carries data. */
  predicate AnyData(chunks: seq<Chunk>)
  {
    exists i :: 0 <= i < |chunks| && chunks[i].data != []
  }

  /**
   * The loop over `iter_content` after the file has been opened with mode
   * `"wb"`: the state after the chunks seen so far. Once the timeout check
   * has fired, later chunks are never looked at. `downloaded_bytes` counts
   * exactly the bytes written, and `received_data` is set exactly when some
   * bytes were written.
   */
  function Receive(chunks: seq<Chunk>, limit: Option<int>, start: real): (r: Received)
    ensures r.downloaded == |r.written|
    ensures r.received <==> r.written != []
    ensures r.timedOut ==> |chunks| > 0
  {
    if |chunks| == 0 then Received([], 0, false, false)
    else
      var prev := Receive(chunks[..|chunks| - 1], limit, start);
      var c := chunks[|chunks| - 1];
      if prev.timedOut then prev
      else if Expired(limit, start, c.at) then prev.(timedOut := true)
      else if c.data != [] then
        Received(prev.written + c.data, prev.downloaded + |c.data|, true, false)
      else prev
  }

  /** Data of a prefix of the chunks, one more chunk at a time. */
  lemma DatasSnoc(chunks: seq<Chunk>)
    requires |chunks| > 0
    ensures Datas(chunks[..|chunks| - 1]) == Datas(chunks)[..|chunks| - 1]
    ensures AnyData(chunks) <==> AnyData(chunks[..|chunks| - 1]) || chunks[|chunks| - 1].data != []
  {
    var init := chunks[..|chunks| - 1];
    if AnyData(chunks) && chunks[|chunks| - 1].data == [] {
      var i :| 0 <= i < |chunks| && chunks[i].data != [];
      assert init[i].data != [];
    }
    if AnyData(init) {
      var i :| 0 <= i < |init| && init[i].data != [];
      assert chunks[i].data != [];
    }
  }

  /** While no check fires, the loop writes and counts every chunk's data. */
  lemma {:induction false} ReceiveInTime(chunks: seq<Chunk>, limit: Option<int>, start: real)
    requires forall i :: 0 <= i < |chunks| ==> !Expired(limit, start, chunks[i].at)
    ensures Receive(chunks, limit, start)
         == Received(Flatten(Datas(chunks)), TotalLength(Datas(chunks)), AnyData(chunks), false)
  {
    if |chunks| > 0 {
      var init := chunks[..|chunks| - 1];
      assert forall i :: 0 <= i < |init| ==> init[i] == chunks[i];
      ReceiveInTime(init, limit, start);
      DatasSnoc(chunks);
    }
  }

  /** The first chunk whose check fires ends the loop with what was written before it. */
  lemma ReceiveTimesOutAt(chunks: seq<Chunk>, limit: Option<int>, start: real, k: nat)
    requires k < |chunks| && Expired(limit, start, chunks[k].at)
    requires !Receive(chunks[..k], limit, start).timedOut
    ensures Receive(chunks, limit, start) == Receive(chunks[..k], limit, start).(timedOut := true)
  {
    var pre := chunks[..k + 1];
    assert pre[..k] == chunks[..k];
    assert Receive(pre, limit, start) == Receive(chunks[..k], limit, start).(timedOut := true);
    ReceiveStopsAt(chunks, limit, start, k + 1);
  }

  /**
   * What one attempt's transfer writes: the file holds exactly the
   * concatenated data of the chunks before the first one whose timeout check
   * fires; `downloaded_bytes` is the sum of their lengths; `received_data`
   * says whether any of them carried data; and the loop ends by timeout
   * exactly when some chunk's check fires.
   */
  lemma ReceiveSpec(chunks: seq<Chunk>, limit: Option<int>, start: real)
    ensures var k := FirstExpired(chunks, limit, start);
      var r := Receive(chunks, limit, start);
      && r.written == Flatten(Datas(chunks[..k]))
      && r.downloaded == TotalLength(Datas(chunks[..k]))
      && r.downloaded == |r.written|
      && (r.received <==> AnyData(chunks[..k]))
      && (r.timedOut <==> k < |chunks|)
  {
    var k := FirstExpired(chunks, limit, start);
    var pre := chunks[..k];
    assert forall i :: 0 <= i < k ==> pre[i] == chunks[i];
    ReceiveInTime(pre, limit, start);
    FlattenLength(Datas(pre));
    if k < |chunks| {
      ReceiveTimesOutAt(chunks, limit, start, k);
    } else {
      assert pre == chunks;
    }
  }

  /** With the total timeout switched off, every chunk is written and the transfer never times out. */
  lemma NoLimitWritesEverything(chunks: seq<Chunk>, limit: Option<int>, start: real)
    requires Disabled(limit)
    ensures Receive(chunks, limit, start).written == Flatten(Datas(chunks))
    ensures !Receive(chunks, limit, start).timedOut
  {
    ReceiveSpec(chunks, limit, start);
    assert chunks[..|chunks|] == chunks;
  }

  /**
   * The deadline is measured from the shared start: once a clock reading is
   * past it, every later reading is too.
   */
  lemma ExpiryPersists(limit: Option<int>, start: real, now: real, later: real)
    requires Expired(limit, start, now)
    requires now <= later
    ensures Expired(limit, start, later)
  {
  }

  /**
   * A transfer whose first clock reading is past the deadline writes nothing:
   * the file is left empty (it was truncated on opening) and the attempt ends
   * by timeout.
   */
  lemma LateTransferWritesNothing(chunks: seq<Chunk>, limit: Option<int>, start: real)
    requires |chunks| > 0 && Expired(limit, start, chunks[0].at)
    ensures Receive(chunks, limit, start) == Received([], 0, false, true)
  {
    ReceiveSpec(chunks, limit, start);
    assert FirstExpired(chunks, limit, start) == 0;
    assert chunks[..0] == [];
  }

  /**
   * The chunk loop as written, over the chunks as they arrive: the clock is
   * checked before each chunk, empty chunks are skipped, and non-empty ones
   * are appended and counted.
   */
  method ReceiveLoop(chunks: seq<Chunk>, limit: Option<int>, start: real)
    returns (written: seq<byte>, downloaded: nat, received: bool, timedOut: bool)
    ensures Received(written, downloaded, received, timedOut) == Receive(chunks, limit, start)
    ensures downloaded == |written|
  {
    written, downloaded, received, timedOut := [], 0, false, false;
    var i := 0;
    while i < |chunks|
      invariant 0 <= i <= |chunks|
      invariant Received(written, downloaded, received, false) == Receive(chunks[..i], limit, start)
      invariant downloaded == |written|
    {
      assert chunks[..i + 1][..i] == chunks[..i];
      var c := chunks[i];
      if Expired(limit, start, c.at) {
        timedOut := true;
        ReceiveStopsAt(chunks, limit, start, i + 1);
        return;
      }
      if c.data != [] {
        received := true;
        written := written + c.data;
        downloaded := downloaded + |c.data|;
      }
      i := i + 1;
    }
    assert chunks[..i] == chunks;
  }

  /** Once the loop has stopped on a timeout, the chunks after that point change nothing. */
  lemma {:induction false} ReceiveStopsAt(chunks: seq<Chunk>, limit: Option<int>, start: real, n: nat)
    requires n <= |chunks|
    requires Receive(chunks[..n], limit, start).timedOut
    ensures Receive(chunks, limit, start) == Receive(chunks[..n], limit, start)
    decreases |chunks| - n
  {
    if n < |chunks| {
      assert chunks[..n + 1][..n] == chunks[..n];
      ReceiveStopsAt(chunks, limit, start, n + 1);
    } else {
      assert chunks[..n] == chunks;
    }
  }
}

=== FILE: url_line.dfy ===
/** The cleaning and the comment test that `read_urls_from_file` applies to each line. */
module UrlLine {
  import opened Text

  /** `line.strip().strip('"').strip(",").strip("'")`, in exactly that order. */
  function Clean(line: string): (url: string)
    ensures |url| <= |line|
  {
    Strip(Strip(Strip(Strip(line, Whitespace), {'"'}), {','}), {'\''})
  }

  /** A cleaned line names a URL when it is non-empty and does not start with `#`. */
  predicate Keep(url: string)
  {
    url != [] && url[0] != '#'
  }

  /** `Clean` is the four strips in sequence: the result of each feeds the next. */
  lemma CleanSteps(line: string, s: string, q: string, c: string, url: string)
    requires Strip(line, Whitespace) == s
    requires Strip(s, {'"'}) == q
    requires Strip(q, {','}) == c
    requires Strip(c, {'\''}) == url
    ensures Clean(line) == url
  {
  }
}

=== FILE: url_list.dfy ===
/**
 * `read_urls_from_file`: every line of the URL file is cleaned by a fixed
 * sequence of strips, and the cleaned line is kept when it is non-empty and
 * is not a `#` comment.
 */
module UrlList {
  import opened Text
  import opened UrlLine

  /** What opening and iterating the URL file yields: its lines (each with its line break), or an error. */
  datatype Source = Unreadable | Lines(lines: seq<string>)

  /**
   * The loop's filter: the cleaned lines that are kept, appended in order.
   * The result is exactly the entries at the kept positions, one per kept
   * position, in increasing order of position.
   */
  function Select(cleaned: seq<string>): (urls: seq<string>)
    ensures |urls| == |KeptIndices(cleaned)| <= |cleaned|
    ensures forall k :: 0 <= k < |urls| ==> urls[k] == cleaned[KeptIndices(cleaned)[k]]
    ensures forall k :: 0 <= k < |urls| ==> Keep(urls[k])
  {
    if |cleaned| == 0 then []
    else
      var n := |cleaned| - 1;
      var init := cleaned[..n];
      var url := cleaned[n];
      var rest := Select(init);
      assert forall k :: 0 <= k < |rest| ==> rest[k] == cleaned[KeptIndices(cleaned)[k]] by {
        assert forall i :: 0 <= i < n ==> init[i] == cleaned[i];
      }
      rest + (if Keep(url) then [url] else [])
  }

  /** The cleaned form of every line, position for position. */
  function CleanAll(lines: seq<string>): (cleaned: seq<string>)
  {
    seq(|lines|, i requires 0 <= i < |lines| => Clean(lines[i]))
  }

  /**
   * The result of `read_urls_from_file`. Any error while opening or reading
   * gives the empty list. Otherwise the URLs are the cleaned forms of exactly
   * the kept lines (see `KeptIndices`), one per kept line, in file order.
   */
  function ReadUrls(src: Source): (urls: seq<string>)
    ensures src.Unreadable? ==> urls == []
    ensures src.Lines? ==>
      var idx := KeptIndices(CleanAll(src.lines));
      && |urls| == |idx| <= |src.lines|
      && forall k :: 0 <= k < |idx| ==> idx[k] < |src.lines| && urls[k] == Clean(src.lines[idx[k]])
    ensures forall k :: 0 <= k < |urls| ==> urls[k] != [] && urls[k][0] != '#'
  {
    match src
    case Unreadable => []
    case Lines(lines) => Select(CleanAll(lines))
  }

  /** The positions of the kept entries, in increasing order. */
  function KeptIndices(cleaned: seq<string>): (idx: seq<nat>)
    ensures |idx| <= |cleaned|
    ensures forall k :: 0 <= k < |idx| ==> idx[k] < |cleaned|
    ensures forall j, k :: 0 <= j < k < |idx| ==> idx[j] < idx[k]
    ensures forall k :: 0 <= k < |idx| ==> Keep(cleaned[idx[k]])
    ensures forall i :: 0 <= i < |cleaned| && Keep(cleaned[i]) ==> i in idx
  {
    if |cleaned| == 0 then []
    else
      var n := |cleaned| - 1;
      var init := cleaned[..n];
      assert forall i :: 0 <= i < n ==> init[i] == cleaned[i];
      KeptIndices(init) + (if Keep(cleaned[n]) then [n] else [])
  }

  /** Reading the lines of two files back to back gives the URLs of each, concatenated. */
  lemma {:induction false} SelectAppend(a: seq<string>, b: seq<string>)
    ensures Select(a + b) == Select(a) + Select(b)
    decreases |b|
  {
    if |b| == 0 {
      assert a + b == a;
    } else {
      var b' := b[..|b| - 1];
      assert (a + b)[..|a + b| - 1] == a + b';
      SelectAppend(a, b');
    }
  }

  /** A character that none of the four strips of `Clean` removes. */
  predicate Solid(c: char)
  {
    c !in Whitespace && c != '"' && c != ',' && c != '\''
  }

  /** A non-empty URL whose first and last characters survive every strip. */
  predicate Bare(url: string)
  {
    url != [] && Solid(url[0]) && Solid(url[|url| - 1])
  }

  /** A run of whitespace, such as indentation or a line break. */
  predicate Blank(ws: string)
  {
    forall k :: 0 <= k < |ws| ==> ws[k] in Whitespace
  }

  /** A string whose first and last characters are outside `cs` is left as it is. */
  lemma Untouched(s: string, cs: set<char>)
    requires s != [] && s[0] !in cs && s[|s| - 1] !in cs
    ensures Strip(s, cs) == s
  {
    StripPadding([], s, [], cs);
    assert [] + s + [] == s;
  }

  /** Strip-set characters before a string are removed. */
  lemma PaddedLeft(pre: string, mid: string, cs: set<char>)
    requires forall k :: 0 <= k < |pre| ==> pre[k] in cs
    requires mid != [] && mid[0] !in cs && mid[|mid| - 1] !in cs
    ensures Strip(pre + mid, cs) == mid
  {
    StripPadding(pre, mid, [], cs);
    assert pre + mid + [] == pre + mid;
  }

  /** Strip-set characters after a string are removed. */
  lemma PaddedRight(mid: string, post: string, cs: set<char>)
    requires forall k :: 0 <= k < |post| ==> post[k] in cs
    requires mid != [] && mid[0] !in cs && mid[|mid| - 1] !in cs
    ensures Strip(mid + post, cs) == mid
  {
    StripPadding([], mid, post, cs);
    assert [] + mid + post == mid + post;
  }

  /** Strip-set padding around a string of two parts is removed. */
  lemma PaddedPair(pre: string, a: string, c: string, post: string, cs: set<char>)
    requires forall k :: 0 <= k < |pre| ==> pre[k] in cs
    requires forall k :: 0 <= k < |post| ==> post[k] in cs
    requires a != [] && a[0] !in cs && c != [] && c[|c| - 1] !in cs
    ensures Strip(pre + a + c + post, cs) == a + c
  {
    assert pre + a + c + post == pre + (a + c) + post;
    StripPadding(pre, a + c, post, cs);
  }

  /** Strip-set padding around a string of three parts is removed. */
  lemma PaddedTriple(pre: string, a: string, b: string, c: string, post: string, cs: set<char>)
    requires forall k :: 0 <= k < |pre| ==> pre[k] in cs
    requires forall k :: 0 <= k < |post| ==> post[k] in cs
    requires a != [] && a[0] !in cs && c != [] && c[|c| - 1] !in cs
    ensures Strip(pre + a + b + c + post, cs) == a + b + c
  {
    assert pre + a + b + c + post == pre + (a + b + c) + post;
    StripPadding(pre, a + b + c, post, cs);
  }

  /** A bare URL is untouched by the strips. */
  lemma BareIsClean(url: string)
    requires Bare(url)
    ensures Clean(url) == url
  {
    Untouched(url, Whitespace);
    Untouched(url, {'"'});
    Untouched(url, {','});
    Untouched(url, {'\''});
    CleanSteps(url, url, url, url, url);
  }

  /** A line of whitespace alone (a blank line) cleans to the empty string and is skipped. */
  lemma BlankLineIsSkipped(ws: string)
    requires Blank(ws)
    ensures Clean(ws) == []
    ensures !Keep(Clean(ws))
  {
    StripPadding(ws, [], [], Whitespace);
    assert ws + [] + [] == ws;
    CleanSteps(ws, [], [], [], []);
  }

  /** A URL line with surrounding whitespace, such as its line break, loses only the whitespace. */
  lemma PaddedUrlIsRecovered(pre: string, url: string, post: string)
    requires Blank(pre) && Blank(post) && Bare(url)
    ensures Clean(pre + url + post) == url
  {
    StripPadding(pre, url, post, Whitespace);
    Untouched(url, {'"'});
    Untouched(url, {','});
    Untouched(url, {'\''});
    CleanSteps(pre + url + post, url, url, url, url);
  }

  /** Whitespace, then a URL between double quotes, then whitespace: the URL is recovered. */
  lemma DoubleQuotedUrlIsRecovered(pre: string, url: string, post: string)
    requires Blank(pre) && Blank(post) && Bare(url)
    ensures Clean(pre + "\"" + url + "\"" + post) == url
  {
    PaddedTriple(pre, "\"", url, "\"", post, Whitespace);
    StripPadding("\"", url, "\"", {'"'});
    Untouched(url, {','});
    Untouched(url, {'\''});
    CleanSteps(pre + "\"" + url + "\"" + post, "\"" + url + "\"", url, url, url);
  }

  /** Whitespace, then a URL between single quotes, then whitespace: the URL is recovered. */
  lemma SingleQuotedUrlIsRecovered(pre: string, url: string, post: string)
    requires Blank(pre) && Blank(post) && Bare(url)
    ensures Clean(pre + "'" + url + "'" + post) == url
  {
    var s := "'" + url + "'";
    PaddedTriple(pre, "'", url, "'", post, Whitespace);
    Untouched(s, {'"'});
    Untouched(s, {','});
    StripPadding("'", url, "'", {'\''});
    CleanSteps(pre + "'" + url + "'" + post, s, s, s, url);
  }

  /** A URL followed by a comma, as in a pasted list, loses the comma. */
  lemma TrailingCommaIsRemoved(pre: string, url: string, post: string)
    requires Blank(pre) && Blank(post) && Bare(url)
    ensures Clean(pre + url + "," + post) == url
  {
    var s := url + ",";
    PaddedPair(pre, url, ",", post, Whitespace);
    Untouched(s, {'"'});
    PaddedRight(url, ",", {','});
    Untouched(url, {'\''});
    CleanSteps(pre + url + "," + post, s, s, url, url);
  }

  /**
   * The strips run in a fixed order, so a double-quoted URL followed by a
   * comma keeps its closing quote: the comma still hides that quote when the
   * double quotes are stripped, and is removed only afterwards.
   */
  lemma QuoteBeforeCommaSurvives(pre: string, url: string, post: string)
    requires Blank(pre) && Blank(post) && Bare(url)
    ensures Clean(pre + "\"" + url + "\"," + post) == url + "\""
  {
    var q := url + "\",";
    var c := url + "\"";
    PaddedTriple(pre, "\"", url, "\",", post, Whitespace);
    PaddedLeft("\"", q, {'"'});
    assert "\"" + q == "\"" + url + "\",";
    PaddedRight(c, ",", {','});
    assert c + "," == q;
    Untouched(c, {'\''});
    CleanSteps(pre + "\"" + url + "\"," + post, "\"" + url + "\",", q, c, c);
  }
}
